=== FILE: README.md ===
# Drone-data store and map drawing editor, in Dafny

This project models two small pieces of a drone flight simulation system.

The first is the data store behind the simulation server (`sim-server/server.js`).
It keeps four SQLite tables:

- `flights`, keyed by a text `flight_id`;
- `telemetry`, with an AUTOINCREMENT id and the `flight_id` each sample belongs to;
- `routes`, holding a name and a waypoint sequence;
- `geofences`, holding a name and a coordinate sequence.

Each HTTP handler is a pure transition `Store -> Step`. A `Step` is the store
afterwards together with a `Result` that is either the reply payload or an `Error`.
A table that has not been created yet is `None`. Its statements then fail with
`NoSuchTable`, as SQLite's "no such table" error does.

- AUTOINCREMENT is modelled once, in `AutoIncrement`. The new id is one more than
  the larger of the `sqlite_sequence` entry and the largest rowid. Once rowid
  2^63-1 has been used, every insert fails (`Full`, SQLite's SQLITE_FULL).
- A JSON field missing from a request body is bound as SQL NULL (`Value.Null`).
  SQLite lets a non-INTEGER primary key hold NULL more than once, so only a text
  `flight_id` can be a duplicate. `WHERE flight_id = ?` never matches a NULL.
- Flight creation is not atomic. The flight row is stored first. Then one telemetry
  insert runs per batch item, and no one checks whether it succeeded: a failed
  insert leaves no row, and the request still answers success. If `telemetry` is not
  an array, `forEach` throws after the flight row is already stored. This is
  `Err(BatchNotArray)`, with the flight row kept. A `null` element of the array
  makes the callback throw when it reaches it. This is `Err(NullItem)`: only the
  flight row is kept. The telemetry statement is still being prepared when the
  callback throws, so the inserts queued for the items in front of the `null`
  never run before the uncaught exception ends the process. Any other non-object
  element reads as an item whose columns are all NULL.

The second piece is the drawing editor of the map page (`sim-frontend/src/App.js`).
It has a mode (`View`, `RouteDrawing`, `GeofenceDrawing`) and two point sequences
collected from map clicks. The mode buttons, map clicks and the two save actions
are pure functions.

- What `prompt` returns is an input: `None` means the prompt was cancelled.
- The request a save posts is an output.
- Whether the awaited `fetch` settled is an input (`delivered`). When the fetch
  rejects, the code after the `await` never runs, so nothing is reset.

`DrawAndStore` links the two pieces: a route or geofence drawn by clicks and saved
is stored, and is listed back with exactly the clicked points.

Invariant `DroneStore.Valid` holds for every reachable store:

- text flight ids are unique;
- every telemetry row names an existing flight;
- every AUTOINCREMENT table keeps its rows in increasing id order.

Every request preserves it.

## Model

| member | source | states |
|---|---|---|
| `AutoIncrement.Insert` | sim-server/server.js:41-45 | an AUTOINCREMENT insert appends exactly one row, with id one more than the larger of the sequence entry and the largest existing id, so above every existing id; it fails exactly when rowid 2^63-1 is used up; it keeps id order |
| `DroneStore.EnsureSchema` | sim-server/server.js:18-50 | create-if-absent: afterwards all four tables exist; a table that existed keeps its contents and counter; a missing one is created empty, with its sequence entry at 0 |
| `DroneStoreFacts.SchemaIdempotent` | sim-server/server.js:18-50 | running the schema statements on a store they already produced changes nothing; the invariant is kept |
| `DroneStoreFacts.FreshStoreValid` | sim-server/server.js:13-50 | a new database file satisfies the invariant, before and after the schema runs |
| `DroneStore.KeyTaken` | sim-server/server.js:19 | the TEXT PRIMARY KEY check: a NULL `flight_id` never clashes; a text key clashes exactly when some stored flight has that key |
| `DroneStoreFacts.NullIdsNeverClash` | sim-server/server.js:78-85 | two flights posted without a `flight_id` are both stored, one after the other; neither is refused as a duplicate |
| `DroneStore.ListFlights` | sim-server/server.js:55-63 | returns every flight row and leaves the store unchanged; fails only when `flights` is missing |
| `DroneStore.InsertTelemetry` | sim-server/server.js:90 | one unchecked telemetry insert: with ids used up the table is unchanged; otherwise exactly one row is appended, under the next id, holding the request's flight id and the item's columns |
| `DroneStore.InsertBatch` | sim-server/server.js:87-92 | the telemetry loop keeps every earlier row, tags each added row with the request's flight id, and keeps id order |
| `DroneStoreFacts.InsertBatchAppends` | sim-server/server.js:87-91 | the batch adds one row per item, in batch order, with consecutive ids, until ids run out; rows already in the table are kept |
| `DroneStore.CreateFlight` | sim-server/server.js:76-97 | if `flights` is missing, or a text `flight_id` is already present, the request fails and the store is unchanged; otherwise the flight row is appended, and the request succeeds exactly when `telemetry` is an array with no `null` element; a non-array `telemetry` or a `null` element fails the request with the flight row stored and no telemetry row added |
| `DroneStore.ItemsBeforeNull` | sim-server/server.js:89-91 | the items the loop reaches before it throws: every element in front of the first `null`, in order, and all of them when there is no `null`; fewer than all exactly when a `null` is there |
| `DroneStoreFacts.BatchRecorded` | sim-server/server.js:87-94 | a new flight whose batch has no `null` and fits gets one telemetry row per item, in batch order; each row holds the item's columns and the request's `flight_id`, never the one inside the item; with a `null` element the request fails and the telemetry table is unchanged |
| `DroneStoreFacts.FlightCommittedWithoutTelemetry` | sim-server/server.js:81-94 | no atomicity: with the telemetry table missing, the flight row is still committed and success is still reported |
| `DroneStoreFacts.DuplicateRejected` | sim-server/server.js:78-85 | a second flight with the same text id fails with a unique violation and changes neither flights nor telemetry |
| `DroneStore.SelectByFlight` | sim-server/server.js:67 | `WHERE flight_id = ?`: a row is selected if and only if its flight id is that text; the result is empty if and only if no row matches |
| `DroneStore.SelectionOrdered` | sim-server/server.js:67 | the selection keeps the table's id order |
| `DroneStore.GetTelemetry` | sim-server/server.js:65-74 | echoes the requested id and returns exactly the matching rows, never one with another flight id; the store is unchanged; fails only when `telemetry` is missing |
| `DroneStoreFacts.TelemetryInIdOrder` | sim-server/server.js:65-74 | in a valid store the telemetry rows come back in id order, which is their insertion order |
| `DroneStoreFacts.UnknownFlightHasNoTelemetry` | sim-server/server.js:67-72 | in a valid store, an unknown flight id yields success with an empty list, not an error |
| `DroneStore.InsertShape` | sim-server/server.js:112-117 | a shape insert fails on a missing table or exhausted ids, changing nothing; otherwise it appends the name and points unchanged under a fresh id above every existing one, and the sequence entry becomes that id |
| `DroneStore.ListRoutes` | sim-server/server.js:100-108 | returns every route row and leaves the store unchanged |
| `DroneStore.CreateRoute` | sim-server/server.js:110-119 | succeeds exactly when the routes table exists and a rowid is left; then appends the route with its name and waypoints under the next id of the routes' own sequence, above every existing route id, and advances that sequence to it; flights, telemetry and geofences are unchanged; a failure changes nothing |
| `DroneStoreFacts.RouteRoundTrip` | sim-server/server.js:110-119 | a created route is listed afterwards under the returned id with its name and waypoints in order; every listed route with that id is this one |
| `DroneStoreFacts.FirstRouteScenario` | sim-server/server.js:110-119 | on a fresh database the first route gets id 1 and is listed with its two waypoints in the given order |
| `DroneStore.ListGeofences` | sim-server/server.js:121-129 | returns every geofence row and leaves the store unchanged |
| `DroneStore.CreateGeofence` | sim-server/server.js:131-140 | succeeds exactly when the geofences table exists and a rowid is left; then the same insert on `geofences`, under the next id of the geofences' own sequence, above every existing geofence id, advancing that sequence; routes, flights and telemetry are unchanged; a failure changes nothing |
| `DroneStoreFacts.IdSequencesIndependent` | sim-server/server.js:41-50 | the outcome and id of a route insert do not depend on the geofences table, nor those of a geofence insert on the routes table |
| `DroneStoreFacts.GeofenceRoundTrip` | sim-server/server.js:131-140 | a created geofence is listed afterwards under the returned id with its name and coordinates in order; every listed geofence with that id is this one |
| `DroneStore.Handle` | sim-server/server.js:55-140 | each of the seven endpoints writes only its own tables, answers with its own kind of payload, can report only its own table as missing, and on failure changes nothing except the flight row a throwing telemetry loop leaves |
| `DroneStoreFacts.QueriesReadOnly` | sim-server/server.js:55-74 | none of the four GET requests changes the store |
| `DroneStoreFacts.FlightsNeverRemoved` | sim-server/server.js:76-97 | no request removes or rewrites a flight row: the flights before are a prefix of the flights after |
| `DroneStoreFacts.HandlePreservesValid` | sim-server/server.js:55-140 | every request keeps the invariant: unique text flight ids, every telemetry row naming an existing flight, ordered ids |
| `DroneStoreFacts.CreateFlightPreservesValid` | sim-server/server.js:76-97 | flight creation keeps the invariant on every path, including a missing table, a non-array batch and a `null` element |
| `MapEditor.Click` | sim-frontend/src/App.js:72-81 | in route mode a click appends the point to the route; in geofence mode it appends it to the geofence; the other sequence is untouched; in view mode nothing changes |
| `MapEditor.ClicksInRouteMode` | sim-frontend/src/App.js:76-77 | clicks in route mode extend the route by exactly the clicked points, in click order |
| `MapEditor.ClicksInGeofenceMode` | sim-frontend/src/App.js:78-79 | clicks in geofence mode extend the geofence by exactly the clicked points, in click order |
| `MapEditor.ClicksInViewMode` | sim-frontend/src/App.js:72-81 | any number of clicks in view mode changes nothing |
| `MapEditor.SetMode` | sim-frontend/src/App.js:126-128 | a mode button changes only the mode and never clears either sequence |
| `MapEditor.SwitchingModesKeepsRoute` | sim-frontend/src/App.js:126-128 | leaving route mode and coming back resumes the same route; clicks made in another mode do not join it |
| `MapEditor.Confirmed` | sim-frontend/src/App.js:85 | `if (name)`: a save goes ahead exactly when `prompt` returned a string that is not empty; a cancelled prompt and an empty name both stop it |
| `MapEditor.SaveRoute` | sim-frontend/src/App.js:83-95 | a non-empty name posts the current route as it stands; after the fetch settles the route is cleared and the mode is view; a cancelled or empty name changes nothing and sends nothing |
| `MapEditor.SaveGeofence` | sim-frontend/src/App.js:97-109 | the same for the current geofence; the current route is never touched |
| `MapEditor.DrawThenSaveRoute` | sim-frontend/src/App.js:83-95 | drawing a route click by click and saving it posts exactly the clicked points in click order and resets the editor |
| `MapEditor.DrawThenSaveGeofence` | sim-frontend/src/App.js:97-109 | the same for a geofence |
| `MapEditor.SaveFromInitialPage` | sim-frontend/src/App.js:13-17 | from the page as first rendered, drawing and saving a route posts the clicked points and returns the editor exactly to its initial state |
| `DrawAndStore.DrawnRouteIsListed` | sim-frontend/src/App.js:86-90 | a route drawn and saved on the page is stored and listed back under the new id with the clicked points in order |
| `DrawAndStore.DrawnGeofenceIsListed` | sim-frontend/src/App.js:100-104 | the same for a geofence |

## Left out

- The HTTP layer is not modelled: request parsing, status codes, JSON envelopes, the catch-all `index.html` route and `app.listen`. Which handler serves which endpoint is modelled by `DroneStore.Handle`; each handler's reply is a `Result`.
- Each request is taken as one indivisible step. In the server, statements of other requests can run between the flight insert (sim-server/server.js:78) and the telemetry inserts (sim-server/server.js:90); that interleaving is not modelled, and the consecutive telemetry ids `InsertBatchAppends` and `BatchRecorded` state hold only under this assumption.
- SQLite connection behaviour is not modelled: a failure to open the database file and the four CREATE TABLE statements running unserialized. A store whose tables exist only in part stands for their effect. Statements against a missing table fail.
- Storage faults other than a missing table, a duplicate key and exhausted rowids (disk I/O errors, locking) are not modelled.
- Column type affinity is not modelled, for example a JSON number stored into a TEXT column. Every bound value is `Null` or opaque text.
- The rowid of the `flights` table is not modelled, because it is never exposed. Flights are kept in insertion order.
- Routes and geofences are not modelled with a missing point array in the request, nor with a `waypoints` or `coordinates` value that is not an array of `{lat, lng}` pairs; the server stores any such value as its JSON text all the same. The name is a `Value`; the points are always a sequence.
- JSON encoding is not modelled: `JSON.stringify` of point lists on the server and `JSON.parse` on the page are taken to round-trip exactly. Coordinates are opaque values.
- What happens to the process after an unchecked telemetry insert fails, or after `forEach` throws, is not modelled. Node-sqlite3 emits an error event, and an uncaught exception ends the process. On a throw the model records no telemetry row, because the queued inserts wait for the statement's preparation and the process ends first. The reply is modelled as the `Err` the throw stands for, although no response is sent. The model keeps only the effect on the tables and that outcome.
- Transactions, rollback and foreign-key enforcement are not modelled, because the code has none (SQLite does not enforce foreign keys unless asked to). `FlightCommittedWithoutTelemetry` shows the partial commit instead of proving all-or-nothing.
- The editor does not model clicks that arrive while a save's `fetch` is pending: each save is one step.
- The editor does not model the list refresh after a save (`fetchRoutes`/`fetchGeofences`), map drawing, markers or React effects.
- The editor does not model that the Save buttons are shown only in their own mode. The save functions accept any mode.
- The map-frontend files are not part of this model. They are rendering wrappers and a static style table over the Google Maps SDK.

=== FILE: autoincrement.dfy ===
/** SQLite tables declared `id INTEGER PRIMARY KEY AUTOINCREMENT`: the rows in
    rowid order and the table's entry in `sqlite_sequence`. */
module AutoIncrement {
  import opened Wrappers

  /** The largest rowid SQLite can store, 2^63 - 1. */
  const MaxRowId: nat := 0x7FFF_FFFF_FFFF_FFFF

  datatype Row<T> = Row(id: nat, data: T)

  /** `counter` is the `sqlite_sequence` value: the largest id the table ever handed out. */
  datatype Table<T> = Table(rows: seq<Row<T>>, counter: nat)

  /** A successful insert: the table afterwards and the id given to the new row
      (the statement's `lastID`). */
  datatype Inserted<T> = Inserted(table: Table<T>, id: nat)

  function Empty<T>(): Table<T> {
    Table([], 0)
  }

  function Max(a: nat, b: nat): nat {
    if a < b then b else a
  }

  /** Rows are kept in strictly increasing id order. */
  ghost predicate Ordered<T>(rows: seq<Row<T>>) {
    forall i, j :: 0 <= i < j < |rows| ==> rows[i].id < rows[j].id
  }

  /** The largest id present in `rows`, or 0 for no rows. */
  function LargestId<T>(rows: seq<Row<T>>): (m: nat)
    ensures forall i :: 0 <= i < |rows| ==> rows[i].id <= m
    ensures m == 0 || exists i :: 0 <= i < |rows| && rows[i].id == m
  {
    if |rows| == 0 then 0
    else Max(LargestId(rows[..|rows| - 1]), rows[|rows| - 1].id)
  }

  /** The id the next insert starts from: the larger of the sequence entry and
      the largest rowid present. */
  function Top<T>(t: Table<T>): nat {
    Max(t.counter, LargestId(t.rows))
  }

  /** Inserts one row the way AUTOINCREMENT does: its id is one more than `Top`;
      once the largest possible rowid has been used every insert fails (SQLITE_FULL). */
  function Insert<T>(t: Table<T>, data: T): (r: Option<Inserted<T>>)
    ensures r.None? <==> Top(t) >= MaxRowId
    ensures r.Some? ==>
              && r.value.table.rows == t.rows + [Row(r.value.id, data)]
              && r.value.id == Top(t) + 1 <= MaxRowId
              && r.value.table.counter == r.value.id
              && Top(r.value.table) == r.value.id
    ensures r.Some? ==> forall i :: 0 <= i < |t.rows| ==> t.rows[i].id < r.value.id
    ensures r.Some? && Ordered(t.rows) ==> Ordered(r.value.table.rows)
  {
    var next := Top(t) + 1;
    if next > MaxRowId then None
    else
      var rows := t.rows + [Row(next, data)];
      assert rows[..|rows| - 1] == t.rows;
      Some(Inserted(Table(rows, next), next))
  }
}

=== FILE: draw_and_store.dfy ===
/** The page and the store together: the point sequence the editor posts is
    the one the store keeps and lists back. */
module DrawAndStore {
  import opened Wrappers
  import opened Geo
  import opened AutoIncrement
  import opened DroneStore
  import opened DroneStoreFacts
  import opened MapEditor

  /** The store request a route POST from the page arrives as. */
  function RouteRequest(p: Post): Request {
    PostRoute(Text(p.name), p.points)
  }

  /** The store request a geofence POST from the page arrives as. */
  function GeofenceRequest(p: Post): Request {
    PostGeofence(Text(p.name), p.points)
  }

  /** A route drawn by clicks and saved under a name is stored, when the
      routes table exists and has ids left, and is then listed under the new
      id with that name and the clicked points in click order. */
  lemma DrawnRouteIsListed(e: Editor, ps: seq<Point>, name: string, s: Store)
    requires e.currentRoute == [] && name != ""
    requires s.routes.Some? && Top(s.routes.value) < MaxRowId
    ensures var post := SaveRoute(Clicks(SetMode(e, RouteDrawing), ps), Some(name), true).post;
            && post.Some?
            && var created := Handle(s, RouteRequest(post.value));
               && created.result.Ok?
               && var listed := ListRoutes(created.store).result;
                  && listed.Ok?
                  && exists i :: 0 <= i < |listed.value.shapes| &&
                       listed.value.shapes[i] == Row(created.result.value.id, Shape(Text(name), ps))
  {
    DrawThenSaveRoute(e, ps, name);
    RouteRoundTrip(s, Text(name), ps);
  }

  /** The same for a geofence and its corners. */
  lemma DrawnGeofenceIsListed(e: Editor, ps: seq<Point>, name: string, s: Store)
    requires e.currentGeofence == [] && name != ""
    requires s.geofences.Some? && Top(s.geofences.value) < MaxRowId
    ensures var post := SaveGeofence(Clicks(SetMode(e, GeofenceDrawing), ps), Some(name), true).post;
            && post.Some?
            && var created := Handle(s, GeofenceRequest(post.value));
               && created.result.Ok?
               && var listed := ListGeofences(created.store).result;
                  && listed.Ok?
                  && exists i :: 0 <= i < |listed.value.shapes| &&
                       listed.value.shapes[i] == Row(created.result.value.id, Shape(Text(name), ps))
  {
    DrawThenSaveGeofence(e, ps, name);
    GeofenceRoundTrip(s, Text(name), ps);
  }
}

=== FILE: editor.dfy ===
/** The drawing state of the map page: which mode the page is in and the
    points clicked so far for a new route and a new geofence. */
module MapEditor {
  import opened Wrappers
  import opened Geo

  /** `mapMode`: 'view', 'route' or 'geofence'. */
  datatype Mode = View | RouteDrawing | GeofenceDrawing

  datatype Editor = Editor(mode: Mode, currentRoute: seq<Point>, currentGeofence: seq<Point>)

  /** The body of a POST the page sends: a name and a point sequence. */
  datatype Post = Post(name: string, points: seq<Point>)

  /** The outcome of pressing a save button: the editor afterwards and the
      request sent, if any. */
  datatype Saved = Saved(editor: Editor, post: Option<Post>)

  /** The page as first rendered. */
  function Initial(): Editor {
    Editor(View, [], [])
  }

  /** `handleMapClick`: the clicked position is appended to the sequence of
      the shape being drawn; in view mode the click is ignored. */
  function Click(e: Editor, p: Point): (r: Editor)
    ensures r.mode == e.mode
    ensures e.mode == View ==> r == e
    ensures e.mode == RouteDrawing ==>
              r.currentRoute == e.currentRoute + [p] && r.currentGeofence == e.currentGeofence
    ensures e.mode == GeofenceDrawing ==>
              r.currentGeofence == e.currentGeofence + [p] && r.currentRoute == e.currentRoute
  {
    match e.mode
    case RouteDrawing => e.(currentRoute := e.currentRoute + [p])
    case GeofenceDrawing => e.(currentGeofence := e.currentGeofence + [p])
    case View => e
  }

  /** A run of clicks, first to last. */
  function Clicks(e: Editor, ps: seq<Point>): Editor
    decreases |ps|
  {
    if |ps| == 0 then e else Clicks(Click(e, ps[0]), ps[1..])
  }

  /** The View, Create Route and Create Geofence buttons: only the mode changes. */
  function SetMode(e: Editor, m: Mode): (r: Editor)
    ensures r.mode == m
    ensures r.currentRoute == e.currentRoute && r.currentGeofence == e.currentGeofence
  {
    e.(mode := m)
  }

  /** Whether the answer to `prompt` lets the save go ahead: a cancelled prompt
      (null) and an empty name are both falsy. */
  function Confirmed(answer: Option<string>): (b: bool)
    ensures b <==> answer != None && answer != Some("")
    ensures b ==> |answer.value| > 0
  {
    answer.Some? && answer.value != ""
  }

  /** `saveRoute`. `answer` is what `prompt` returned; `delivered` says whether
      the awaited `fetch` settled normally (it rejects on a network failure,
      whether or not the server received the request). The current route is
      posted as it stands; only
      after a settled fetch is it cleared and the mode set back to view. */
  function SaveRoute(e: Editor, answer: Option<string>, delivered: bool): (r: Saved)
    ensures r.post.Some? <==> Confirmed(answer)
    ensures r.post.Some? ==> r.post.value == Post(answer.value, e.currentRoute)
    ensures !Confirmed(answer) || !delivered ==> r.editor == e
    ensures Confirmed(answer) && delivered ==> r.editor == Editor(View, [], e.currentGeofence)
  {
    if !Confirmed(answer) then Saved(e, None)
    else
      var post := Post(answer.value, e.currentRoute);
      if delivered then Saved(Editor(View, [], e.currentGeofence), Some(post))
      else Saved(e, Some(post))
  }

  /** `saveGeofence`: the same for the current geofence; the current route is
      never touched. */
  function SaveGeofence(e: Editor, answer: Option<string>, delivered: bool): (r: Saved)
    ensures r.post.Some? <==> Confirmed(answer)
    ensures r.post.Some? ==> r.post.value == Post(answer.value, e.currentGeofence)
    ensures !Confirmed(answer) || !delivered ==> r.editor == e
    ensures Confirmed(answer) && delivered ==> r.editor == Editor(View, e.currentRoute, [])
  {
    if !Confirmed(answer) then Saved(e, None)
    else
      var post := Post(answer.value, e.currentGeofence);
      if delivered then Saved(Editor(View, e.currentRoute, []), Some(post))
      else Saved(e, Some(post))
  }

  /** Clicks in route mode extend the route by exactly the clicked points, in
      click order, and leave the geofence alone. */
  lemma {:induction false} ClicksInRouteMode(e: Editor, ps: seq<Point>)
    requires e.mode == RouteDrawing
    ensures Clicks(e, ps) == e.(currentRoute := e.currentRoute + ps)
    decreases |ps|
  {
    if |ps| > 0 {
      ClicksInRouteMode(Click(e, ps[0]), ps[1..]);
      assert e.currentRoute + [ps[0]] + ps[1..] == e.currentRoute + ps;
    }
  }

  /** Clicks in geofence mode extend the geofence by exactly the clicked
      points, in click order, and leave the route alone. */
  lemma {:induction false} ClicksInGeofenceMode(e: Editor, ps: seq<Point>)
    requires e.mode == GeofenceDrawing
    ensures Clicks(e, ps) == e.(currentGeofence := e.currentGeofence + ps)
    decreases |ps|
  {
    if |ps| > 0 {
      ClicksInGeofenceMode(Click(e, ps[0]), ps[1..]);
      assert e.currentGeofence + [ps[0]] + ps[1..] == e.currentGeofence + ps;
    }
  }

  /** Any number of clicks in view mode changes nothing. */
  lemma {:induction false} ClicksInViewMode(e: Editor, ps: seq<Point>)
    requires e.mode == View
    ensures Clicks(e, ps) == e
    decreases |ps|
  {
    if |ps| > 0 {
      ClicksInViewMode(Click(e, ps[0]), ps[1..]);
    }
  }

  /** Drawing a route from the view, point by point, and saving it under a
      name posts exactly the clicked points in click order and returns the
      page to view mode with an empty route and the geofence as it was. */
  lemma DrawThenSaveRoute(e: Editor, ps: seq<Point>, name: string)
    requires e.currentRoute == [] && name != ""
    ensures var drawn := Clicks(SetMode(e, RouteDrawing), ps);
            var saved := SaveRoute(drawn, Some(name), true);
            && saved.post == Some(Post(name, ps))
            && saved.editor == Editor(View, [], e.currentGeofence)
  {
    ClicksInRouteMode(SetMode(e, RouteDrawing), ps);
    assert e.currentRoute + ps == ps;
  }

  /** The same for a geofence. */
  lemma DrawThenSaveGeofence(e: Editor, ps: seq<Point>, name: string)
    requires e.currentGeofence == [] && name != ""
    ensures var drawn := Clicks(SetMode(e, GeofenceDrawing), ps);
            var saved := SaveGeofence(drawn, Some(name), true);
            && saved.post == Some(Post(name, ps))
            && saved.editor == Editor(View, e.currentRoute, [])
  {
    ClicksInGeofenceMode(SetMode(e, GeofenceDrawing), ps);
    assert e.currentGeofence + ps == ps;
  }

  /** From the page as first rendered, drawing a route and saving it posts the
      clicked points and brings the page back to exactly where it started. */
  lemma SaveFromInitialPage(ps: seq<Point>, name: string)
    requires name != ""
    ensures SaveRoute(Clicks(SetMode(Initial(), RouteDrawing), ps), Some(name), true)
            == Saved(Initial(), Some(Post(name, ps)))
  {
    DrawThenSaveRoute(Initial(), ps, name);
  }

  /** Leaving route mode, clicking elsewhere and coming back resumes the same
      route: no point drawn before the switch is lost, and no click made in
      another mode joins the route. */
  lemma SwitchingModesKeepsRoute(e: Editor, before: seq<Point>, m: Mode, elsewhere: seq<Point>, after: seq<Point>)
    requires e.mode == RouteDrawing && m != RouteDrawing
    ensures Clicks(SetMode(Clicks(SetMode(Clicks(e, before), m), elsewhere), RouteDrawing), after).currentRoute
            == e.currentRoute + before + after
  {
    ClicksInRouteMode(e, before);
    var away := SetMode(Clicks(e, before), m);
    if m == View {
      ClicksInViewMode(away, elsewhere);
    } else {
      ClicksInGeofenceMode(away, elsewhere);
    }
    ClicksInRouteMode(SetMode(Clicks(away, elsewhere), RouteDrawing), after);
  }
}

=== FILE: geo.dfy ===
/** Map positions, as the editor collects them and the store keeps them. */
module Geo {

  /** One coordinate, an opaque value: the number a map click reports. Both
      pieces only ever copy coordinates and compare them, never compute with
      them, so their numeric form is not needed. */
  datatype Coord = Coord(value: string)

  /** A `{lat, lng}` pair: one waypoint of a route or one corner of a geofence. */
  datatype Point = Point(lat: Coord, lng: Coord)
}

=== FILE: store.dfy ===
/** The drone-data store behind the flight, telemetry, route and geofence
    handlers: four SQLite tables and one pure transition per handler. */
module DroneStore {
  import opened Wrappers
  import opened Geo
  import AutoIncrement

  /** A value bound to a statement parameter. A field missing from the JSON
      body is bound as SQL NULL; any other value is kept as opaque text. */
  datatype Value = Null | Text(text: string)

  /** A row of `flights`; `flightId` is the TEXT PRIMARY KEY. */
  datatype Flight = Flight(
    flightId: Value, droneId: Value, trackerId: Value,
    start: Value, end: Value, companyId: Value)

  /** The ten telemetry columns the handler copies from each posted item. */
  datatype Sample = Sample(
    uaId: Value, uaTelemType: Value, t: Value, lat: Value, lng: Value,
    alt: Value, v: Value, a: Value, head: Value, status: Value)

  /** One element of the posted `telemetry` array. `claimedFlightId` is
      whatever `flight_id` the item itself carries; the handler never reads it. */
  datatype TelemetryItem = TelemetryItem(claimedFlightId: Value, sample: Sample)

  /** One element of the posted `telemetry` array: `None` is a JSON `null`,
      on which reading `item.ua_id` throws. */
  type BatchElement = Option<TelemetryItem>

  /** The columns of a `telemetry` row other than its id. */
  datatype TelemetryRecord = TelemetryRecord(flightId: Value, sample: Sample)

  /** The columns of a `routes` or `geofences` row other than its id: the name
      and the point sequence (`waypoints` or `coordinates`). The JSON text the
      sequence is stored as is taken to decode to the sequence it encodes. */
  datatype Shape = Shape(name: Value, points: seq<Point>)

  type TelemetryRow = AutoIncrement.Row<TelemetryRecord>
  type ShapeRow = AutoIncrement.Row<Shape>

  datatype TableName = FlightsTable | TelemetryTable | RoutesTable | GeofencesTable

  /** The database file. A table is `None` until its CREATE TABLE has run. */
  datatype Store = Store(
    flights: Option<seq<Flight>>,
    telemetry: Option<AutoIncrement.Table<TelemetryRecord>>,
    routes: Option<AutoIncrement.Table<Shape>>,
    geofences: Option<AutoIncrement.Table<Shape>>)

  /** Why a statement or handler failed: a table that does not exist, a
      duplicate primary key, an exhausted AUTOINCREMENT rowid (SQLITE_FULL), a
      `telemetry` field that is not an array (the TypeError `forEach` throws),
      or a `null` element of that array (the TypeError reading its fields throws). */
  datatype Error = NoSuchTable(table: TableName) | UniqueViolation | Full | BatchNotArray | NullItem

  /** The payload of a successful response. */
  datatype Reply =
    | FlightList(flights: seq<Flight>)
    | FlightTelemetry(flightId: string, rows: seq<TelemetryRow>)
    | FlightAdded
    | ShapeList(shapes: seq<ShapeRow>)
    | ShapeAdded(id: nat)

  /** A transition: the store afterwards and what the handler answers. */
  datatype Step = Step(store: Store, result: Result<Reply, Error>)

  /** A freshly created database file: no tables yet. */
  function NoTables(): Store {
    Store(None, None, None, None)
  }

  // ---------------------------------------------------------------- schema

  /** The four `CREATE TABLE IF NOT EXISTS` statements: every missing table is
      created empty, every existing table is left as it is. */
  function EnsureSchema(s: Store): (r: Store)
    ensures r.flights.Some? && r.telemetry.Some? && r.routes.Some? && r.geofences.Some?
    ensures s.flights.Some? ==> r.flights == s.flights
    ensures s.telemetry.Some? ==> r.telemetry == s.telemetry
    ensures s.routes.Some? ==> r.routes == s.routes
    ensures s.geofences.Some? ==> r.geofences == s.geofences
    ensures s.flights.None? ==> r.flights == Some([])
    ensures s.telemetry.None? ==> r.telemetry == Some(AutoIncrement.Empty())
    ensures s.routes.None? ==> r.routes == Some(AutoIncrement.Empty())
    ensures s.geofences.None? ==> r.geofences == Some(AutoIncrement.Empty())
  {
    Store(
      if s.flights.Some? then s.flights else Some([]),
      if s.telemetry.Some? then s.telemetry else Some(AutoIncrement.Empty()),
      if s.routes.Some? then s.routes else Some(AutoIncrement.Empty()),
      if s.geofences.Some? then s.geofences else Some(AutoIncrement.Empty()))
  }

  // ---------------------------------------------------------------- flights

  /** Whether inserting a flight with primary key `key` violates uniqueness.
      SQLite lets a non-INTEGER primary key hold NULL any number of times, so
      only a text key can clash. */
  function KeyTaken(flights: seq<Flight>, key: Value): (b: bool)
    ensures key.Null? ==> !b
    ensures !b <==> key.Null? || forall i :: 0 <= i < |flights| ==> flights[i].flightId != key
  {
    key.Text? && exists i :: 0 <= i < |flights| && flights[i].flightId == key
  }

  /** `SELECT * FROM flights`. */
  function ListFlights(s: Store): (r: Step)
    ensures r.store == s
    ensures r.result.Ok? <==> s.flights.Some?
    ensures r.result.Ok? ==> r.result.value == FlightList(s.flights.value)
    ensures r.result.Err? ==> r.result.error == NoSuchTable(FlightsTable)
  {
    match s.flights
    case None => Step(s, Err(NoSuchTable(FlightsTable)))
    case Some(rows) => Step(s, Ok(FlightList(rows)))
  }

  /** One unchecked `stmt.run` of the telemetry insert: the row is added with
      the request's flight id or, when the insert fails, nothing happens. */
  function InsertTelemetry(t: AutoIncrement.Table<TelemetryRecord>, key: Value, item: TelemetryItem)
    : (r: AutoIncrement.Table<TelemetryRecord>)
    ensures AutoIncrement.Top(t) >= AutoIncrement.MaxRowId ==> r == t
    ensures AutoIncrement.Top(t) < AutoIncrement.MaxRowId ==>
              && r.rows == t.rows + [AutoIncrement.Row(AutoIncrement.Top(t) + 1, TelemetryRecord(key, item.sample))]
              && AutoIncrement.Top(r) == AutoIncrement.Top(t) + 1
  {
    match AutoIncrement.Insert(t, TelemetryRecord(key, item.sample))
    case None => t
    case Some(ins) => ins.table
  }

  /** The `telemetry.forEach` loop on an existing table: every item is inserted
      in batch order and no insert's outcome is looked at. */
  function InsertBatch(t: AutoIncrement.Table<TelemetryRecord>, key: Value, items: seq<TelemetryItem>)
    : (r: AutoIncrement.Table<TelemetryRecord>)
    ensures |t.rows| <= |r.rows| && r.rows[..|t.rows|] == t.rows
    ensures forall i :: |t.rows| <= i < |r.rows| ==> r.rows[i].data.flightId == key
    ensures AutoIncrement.Ordered(t.rows) ==> AutoIncrement.Ordered(r.rows)
    decreases |items|
  {
    if |items| == 0 then t
    else InsertBatch(InsertTelemetry(t, key, items[0]), key, items[1..])
  }

  /** The items the `forEach` callback reaches before it throws: those in
      front of the first `null` element, or all of them when there is none. */
  function ItemsBeforeNull(elements: seq<BatchElement>): (r: seq<TelemetryItem>)
    ensures |r| <= |elements|
    ensures forall i :: 0 <= i < |r| ==> elements[i] == Some(r[i])
    ensures |r| < |elements| ==> elements[|r|].None?
    decreases |elements|
  {
    if |elements| == 0 || elements[0].None? then []
    else [elements[0].value] + ItemsBeforeNull(elements[1..])
  }

  /** The telemetry inserts of one request. Against a missing table every
      insert fails, which no one notices. */
  function RecordBatch(s: Store, key: Value, items: seq<TelemetryItem>): Store {
    match s.telemetry
    case None => s
    case Some(t) => s.(telemetry := Some(InsertBatch(t, key, items)))
  }

  /** `POST /api/flights`: insert the flight row; if that succeeds, run the
      telemetry inserts without checking them and answer success. The flight
      row is committed before, and independently of, its telemetry. `batch`
      is `None` when the body's `telemetry` is not an array: `forEach` then
      throws after the flight row is already stored. A `null` element makes
      the callback throw when it reaches it; the statement is still being
      prepared then, so none of the queued inserts runs before the uncaught
      exception ends the process: only the flight row stays. */
  function CreateFlight(s: Store, flight: Flight, batch: Option<seq<BatchElement>>): (r: Step)
    ensures r.store.routes == s.routes && r.store.geofences == s.geofences
    ensures r.result == Err(NoSuchTable(FlightsTable)) <==> s.flights.None?
    ensures r.result == Err(UniqueViolation) <==> s.flights.Some? && KeyTaken(s.flights.value, flight.flightId)
    ensures r.result.Err? && r.result.error !in {BatchNotArray, NullItem} ==> r.store == s
    ensures r.result == Err(BatchNotArray) ==> batch.None? && r.store == s.(flights := Some(s.flights.value + [flight]))
    ensures r.result == Err(NullItem) ==>
              && batch.Some? && |ItemsBeforeNull(batch.value)| < |batch.value|
              && r.store == s.(flights := Some(s.flights.value + [flight]))
    ensures r.result.Ok? ==>
              && r.result.value == FlightAdded
              && batch.Some? && (forall i :: 0 <= i < |batch.value| ==> batch.value[i].Some?)
              && r.store == RecordBatch(s.(flights := Some(s.flights.value + [flight])), flight.flightId,
                                        ItemsBeforeNull(batch.value))
    ensures s.flights.Some? && !KeyTaken(s.flights.value, flight.flightId) ==>
              && r.store.flights == Some(s.flights.value + [flight])
              && (r.result.Ok? <==> batch.Some? && forall i :: 0 <= i < |batch.value| ==> batch.value[i].Some?)
              && (r.result == Err(NullItem) <==> batch.Some? && exists i :: 0 <= i < |batch.value| && batch.value[i].None?)
  {
    match s.flights
    case None => Step(s, Err(NoSuchTable(FlightsTable)))
    case Some(flights) =>
      if KeyTaken(flights, flight.flightId) then Step(s, Err(UniqueViolation))
      else
        var withFlight := s.(flights := Some(flights + [flight]));
        match batch
        case None => Step(withFlight, Err(BatchNotArray))
        case Some(elements) =>
          var items := ItemsBeforeNull(elements);
          if |items| == |elements| then Step(RecordBatch(withFlight, flight.flightId, items), Ok(FlightAdded))
          else Step(withFlight, Err(NullItem))
  }

  // -------------------------------------------------------------- telemetry

  /** `WHERE flight_id = ?` with a text parameter: NULL never compares equal,
      so a row matches exactly when its flight id is that text. */
  function SelectByFlight(rows: seq<TelemetryRow>, f: string): (r: seq<TelemetryRow>)
    ensures forall x :: x in r <==> x in rows && x.data.flightId == Text(f)
    ensures r == [] <==> forall i :: 0 <= i < |rows| ==> rows[i].data.flightId != Text(f)
    ensures |r| <= |rows|
    decreases |rows|
  {
    if |rows| == 0 then []
    else
      var rest := SelectByFlight(rows[1..], f);
      assert rows == [rows[0]] + rows[1..];
      if rows[0].data.flightId == Text(f) then [rows[0]] + rest else rest
  }

  /** The selection keeps the table's id order. */
  lemma {:induction false} SelectionOrdered(rows: seq<TelemetryRow>, f: string)
    requires AutoIncrement.Ordered(rows)
    ensures AutoIncrement.Ordered(SelectByFlight(rows, f))
    decreases |rows|
  {
    if |rows| > 0 {
      SelectionOrdered(rows[1..], f);
      if rows[0].data.flightId == Text(f) {
        var rest := SelectByFlight(rows[1..], f);
        forall x | x in rest ensures rows[0].id < x.id {
          var k :| 0 <= k < |rows[1..]| && rows[1..][k] == x;
          assert rows[k + 1] == x;
        }
        assert SelectByFlight(rows, f) == [rows[0]] + rest;
      }
    }
  }

  /** `GET /api/flights/:flightId/telemetry`: the rows recorded for `f`, with
      `f` echoed back. An unknown `f` simply selects no rows. */
  function GetTelemetry(s: Store, f: string): (r: Step)
    ensures r.store == s
    ensures r.result.Ok? <==> s.telemetry.Some?
    ensures r.result.Err? ==> r.result.error == NoSuchTable(TelemetryTable)
    ensures r.result.Ok? ==>
              && r.result.value.FlightTelemetry?
              && r.result.value.flightId == f
              && (forall x :: x in r.result.value.rows <==>
                               x in s.telemetry.value.rows && x.data.flightId == Text(f))
  {
    match s.telemetry
    case None => Step(s, Err(NoSuchTable(TelemetryTable)))
    case Some(t) => Step(s, Ok(FlightTelemetry(f, SelectByFlight(t.rows, f))))
  }

  // ---------------------------------------------------- routes and geofences

  /** A shape table after an insert, and the handler's answer. */
  datatype ShapeStep = ShapeStep(table: Option<AutoIncrement.Table<Shape>>, result: Result<Reply, Error>)

  /** `INSERT INTO <table> (name, <points>) VALUES (?, ?)` on an AUTOINCREMENT
      shape table, answering with the new row's id. */
  function InsertShape(table: Option<AutoIncrement.Table<Shape>>, which: TableName, shape: Shape): (r: ShapeStep)
    ensures table.None? ==> r == ShapeStep(table, Err(NoSuchTable(which)))
    ensures table.Some? && AutoIncrement.Top(table.value) >= AutoIncrement.MaxRowId ==> r == ShapeStep(table, Err(Full))
    ensures table.Some? && AutoIncrement.Top(table.value) < AutoIncrement.MaxRowId ==>
              && r.result.Ok? && r.result.value.ShapeAdded?
              && r.table.Some?
              && r.table.value.rows == table.value.rows + [AutoIncrement.Row(r.result.value.id, shape)]
              && r.result.value.id == AutoIncrement.Top(table.value) + 1
              && r.table.value.counter == r.result.value.id
              && (forall i :: 0 <= i < |table.value.rows| ==> table.value.rows[i].id < r.result.value.id)
              && (AutoIncrement.Ordered(table.value.rows) ==> AutoIncrement.Ordered(r.table.value.rows))
  {
    match table
    case None => ShapeStep(table, Err(NoSuchTable(which)))
    case Some(t) =>
      match AutoIncrement.Insert(t, shape)
      case None => ShapeStep(table, Err(Full))
      case Some(ins) => ShapeStep(Some(ins.table), Ok(ShapeAdded(ins.id)))
  }

  /** `GET /api/routes`. */
  function ListRoutes(s: Store): (r: Step)
    ensures r.store == s
    ensures r.result.Ok? <==> s.routes.Some?
    ensures r.result.Ok? ==> r.result.value == ShapeList(s.routes.value.rows)
    ensures r.result.Err? ==> r.result.error == NoSuchTable(RoutesTable)
  {
    match s.routes
    case None => Step(s, Err(NoSuchTable(RoutesTable)))
    case Some(t) => Step(s, Ok(ShapeList(t.rows)))
  }

  /** `POST /api/routes`. */
  function CreateRoute(s: Store, name: Value, waypoints: seq<Point>): (r: Step)
    ensures r.store.flights == s.flights && r.store.telemetry == s.telemetry
    ensures r.store.geofences == s.geofences
    ensures r.result.Err? ==> r.store == s
    ensures s.routes.None? ==> r.result == Err(NoSuchTable(RoutesTable))
    ensures s.routes.Some? ==>
              (r.result == Err(Full) <==> AutoIncrement.Top(s.routes.value) >= AutoIncrement.MaxRowId)
    ensures r.result.Ok? <==> s.routes.Some? && AutoIncrement.Top(s.routes.value) < AutoIncrement.MaxRowId
    ensures r.result.Ok? ==>
              && r.result.value.ShapeAdded?
              && s.routes.Some? && r.store.routes.Some?
              && r.store.routes.value.rows ==
                   s.routes.value.rows + [AutoIncrement.Row(r.result.value.id, Shape(name, waypoints))]
              && r.result.value.id == AutoIncrement.Top(s.routes.value) + 1
              && r.store.routes.value.counter == r.result.value.id
              && (forall i :: 0 <= i < |s.routes.value.rows| ==>
                                s.routes.value.rows[i].id < r.result.value.id)
  {
    var inserted := InsertShape(s.routes, RoutesTable, Shape(name, waypoints));
    Step(s.(routes := inserted.table), inserted.result)
  }

  /** `GET /api/geofences`. */
  function ListGeofences(s: Store): (r: Step)
    ensures r.store == s
    ensures r.result.Ok? <==> s.geofences.Some?
    ensures r.result.Ok? ==> r.result.value == ShapeList(s.geofences.value.rows)
    ensures r.result.Err? ==> r.result.error == NoSuchTable(GeofencesTable)
  {
    match s.geofences
    case None => Step(s, Err(NoSuchTable(GeofencesTable)))
    case Some(t) => Step(s, Ok(ShapeList(t.rows)))
  }

  /** `POST /api/geofences`: the same insert on the `geofences` table, which
      has its own id sequence. */
  function CreateGeofence(s: Store, name: Value, coordinates: seq<Point>): (r: Step)
    ensures r.store.flights == s.flights && r.store.telemetry == s.telemetry
    ensures r.store.routes == s.routes
    ensures r.result.Err? ==> r.store == s
    ensures s.geofences.None? ==> r.result == Err(NoSuchTable(GeofencesTable))
    ensures s.geofences.Some? ==>
              (r.result == Err(Full) <==> AutoIncrement.Top(s.geofences.value) >= AutoIncrement.MaxRowId)
    ensures r.result.Ok? <==> s.geofences.Some? && AutoIncrement.Top(s.geofences.value) < AutoIncrement.MaxRowId
    ensures r.result.Ok? ==>
              && r.result.value.ShapeAdded?
              && s.geofences.Some? && r.store.geofences.Some?
              && r.store.geofences.value.rows ==
                   s.geofences.value.rows + [AutoIncrement.Row(r.result.value.id, Shape(name, coordinates))]
              && r.result.value.id == AutoIncrement.Top(s.geofences.value) + 1
              && r.store.geofences.value.counter == r.result.value.id
              && (forall i :: 0 <= i < |s.geofences.value.rows| ==>
                                s.geofences.value.rows[i].id < r.result.value.id)
  {
    var inserted := InsertShape(s.geofences, GeofencesTable, Shape(name, coordinates));
    Step(s.(geofences := inserted.table), inserted.result)
  }

  // ------------------------------------------------------------- dispatcher

  /** The seven API requests the store serves. */
  datatype Request =
    | GetFlights
    | GetFlightTelemetry(flightId: string)
    | PostFlight(flight: Flight, batch: Option<seq<BatchElement>>)
    | GetRoutes
    | PostRoute(name: Value, waypoints: seq<Point>)
    | GetGeofences
    | PostGeofence(name: Value, coordinates: seq<Point>)
  {
    predicate IsQuery() {
      GetFlights? || GetFlightTelemetry? || GetRoutes? || GetGeofences?
    }
  }

  /** The table a request reads or writes first; the only one whose absence
      it can report. */
  function TableOf(req: Request): TableName {
    match req
    case GetFlights => FlightsTable
    case PostFlight(_, _) => FlightsTable
    case GetFlightTelemetry(_) => TelemetryTable
    case GetRoutes => RoutesTable
    case PostRoute(_, _) => RoutesTable
    case GetGeofences => GeofencesTable
    case PostGeofence(_, _) => GeofencesTable
  }

  /** Whether `reply` is the kind of success payload `req`'s endpoint sends. */
  predicate Answers(req: Request, reply: Reply) {
    match req
    case GetFlights => reply.FlightList?
    case GetFlightTelemetry(f) => reply.FlightTelemetry? && reply.flightId == f
    case PostFlight(_, _) => reply == FlightAdded
    case GetRoutes => reply.ShapeList?
    case PostRoute(_, _) => reply.ShapeAdded?
    case GetGeofences => reply.ShapeList?
    case PostGeofence(_, _) => reply.ShapeAdded?
  }

  /** The seven endpoints, each sent to its handler. A request writes only the
      tables of its own endpoint, answers with its own kind of payload, and
      when it fails changes nothing, except for the flight row a throwing
      telemetry loop leaves behind. */
  function Handle(s: Store, req: Request): (r: Step)
    ensures req.IsQuery() ==> r.store == s
    ensures !req.PostFlight? ==> r.store.flights == s.flights && r.store.telemetry == s.telemetry
    ensures !req.PostRoute? ==> r.store.routes == s.routes
    ensures !req.PostGeofence? ==> r.store.geofences == s.geofences
    ensures r.result.Ok? ==> Answers(req, r.result.value)
    ensures r.result.Err? && r.result.error.NoSuchTable? ==> r.result.error.table == TableOf(req)
    ensures r.result.Err? && r.result.error !in {BatchNotArray, NullItem} ==> r.store == s
    ensures r.result.Err? && r.result.error in {BatchNotArray, NullItem} ==>
              req.PostFlight? && s.flights.Some? && r.store == s.(flights := Some(s.flights.value + [req.flight]))
  {
    match req
    case GetFlights => ListFlights(s)
    case GetFlightTelemetry(f) => GetTelemetry(s, f)
    case PostFlight(flight, batch) => CreateFlight(s, flight, batch)
    case GetRoutes => ListRoutes(s)
    case PostRoute(name, waypoints) => CreateRoute(s, name, waypoints)
    case GetGeofences => ListGeofences(s)
    case PostGeofence(name, coordinates) => CreateGeofence(s, name, coordinates)
  }

  // -------------------------------------------------------------- invariant

  /** Some flight row has primary key `key`. */
  ghost predicate HasFlight(s: Store, key: Value) {
    s.flights.Some? && exists j :: 0 <= j < |s.flights.value| && s.flights.value[j].flightId == key
  }

  /** What every reachable store satisfies: text flight keys are unique, each
      telemetry row names a flight that exists, and every AUTOINCREMENT table
      keeps its rows in increasing id order. */
  ghost predicate Valid(s: Store) {
    && (s.flights.Some? ==>
          forall i, j :: 0 <= i < j < |s.flights.value| && s.flights.value[i].flightId.Text? ==>
                           s.flights.value[i].flightId != s.flights.value[j].flightId)
    && (s.telemetry.Some? ==>
          && AutoIncrement.Ordered(s.telemetry.value.rows)
          && forall i :: 0 <= i < |s.telemetry.value.rows| ==>
                           HasFlight(s, s.telemetry.value.rows[i].data.flightId))
    && (s.routes.Some? ==> AutoIncrement.Ordered(s.routes.value.rows))
    && (s.geofences.Some? ==> AutoIncrement.Ordered(s.geofences.value.rows))
  }
}

=== FILE: store_facts.dfy ===
/** Properties of the drone-data store that relate several transitions or
    hold for every request. */
module DroneStoreFacts {
  import opened Wrappers
  import opened Geo
  import opened AutoIncrement
  import opened DroneStore

  // ---------------------------------------------------------------- schema

  /** Running the schema statements again, on any store, changes nothing. */
  lemma SchemaIdempotent(s: Store)
    ensures EnsureSchema(EnsureSchema(s)) == EnsureSchema(s)
    ensures Valid(s) ==> Valid(EnsureSchema(s))
  {
  }

  /** A new database file satisfies the invariant, before and after the schema runs. */
  lemma FreshStoreValid()
    ensures Valid(NoTables()) && Valid(EnsureSchema(NoTables()))
  {
  }

  // -------------------------------------------------------------- telemetry

  /** The rows a batch produces when every insert succeeds: ids counting up from
      `base + 1`, each carrying the request's flight id and its item's columns. */
  function NewRows(base: nat, key: Value, items: seq<TelemetryItem>): seq<TelemetryRow> {
    seq(|items|, i requires 0 <= i < |items| => Row(base + i + 1, TelemetryRecord(key, items[i].sample)))
  }

  /** How many of `n` inserts succeed when the table's ids have reached `top`:
      all of them until the largest rowid is used, none after that. */
  function Accepted(top: nat, n: nat): nat {
    if top >= MaxRowId then 0
    else if n <= MaxRowId - top then n
    else MaxRowId - top
  }

  /** One successful insert followed by the rest of the batch is the batch. */
  lemma NewRowsCons(rows: seq<TelemetryRow>, top: nat, key: Value, items: seq<TelemetryItem>, n: nat,
                    rest: seq<TelemetryRow>)
    requires 0 < n <= |items|
    requires rest == (rows + [Row(top + 1, TelemetryRecord(key, items[0].sample))]) +
                     NewRows(top + 1, key, items[1..][..n - 1])
    ensures rest == rows + NewRows(top, key, items[..n])
  {
    var whole := NewRows(top, key, items[..n]);
    assert whole == [Row(top + 1, TelemetryRecord(key, items[0].sample))] + NewRows(top + 1, key, items[1..][..n - 1]);
  }

  /** The batch loop appends, in batch order, one row per item for as long as
      ids remain, and nothing once the table is missing or its ids are used up;
      the rows already in the table stay as they were. */
  lemma {:induction false} InsertBatchAppends(t: Table<TelemetryRecord>, key: Value, items: seq<TelemetryItem>)
    ensures InsertBatch(t, key, items).rows == t.rows + NewRows(Top(t), key, items[..Accepted(Top(t), |items|)])
    decreases |items|
  {
    if |items| == 0 {
      assert NewRows(Top(t), key, items[..0]) == [];
    } else {
      var t1 := InsertTelemetry(t, key, items[0]);
      InsertBatchAppends(t1, key, items[1..]);
      BatchStep(t, key, items, InsertBatch(t1, key, items[1..]).rows);
    }
  }

  /** The induction step of `InsertBatchAppends`: the first insert followed by
      the rest of the batch. */
  lemma BatchStep(t: Table<TelemetryRecord>, key: Value, items: seq<TelemetryItem>, rest: seq<TelemetryRow>)
    requires |items| > 0
    requires var t1 := InsertTelemetry(t, key, items[0]);
             rest == t1.rows + NewRows(Top(t1), key, items[1..][..Accepted(Top(t1), |items| - 1)])
    ensures rest == t.rows + NewRows(Top(t), key, items[..Accepted(Top(t), |items|)])
  {
    var top := Top(t);
    var t1 := InsertTelemetry(t, key, items[0]);
    if top >= MaxRowId {
      assert NewRows(top, key, items[1..][..0]) == [] == NewRows(top, key, items[..0]);
    } else {
      var n := Accepted(top, |items|);
      AcceptedStep(top, |items|);
      NewRowsCons(t.rows, top, key, items, n, rest);
    }
  }

  lemma AcceptedStep(top: nat, n: nat)
    requires n > 0 && top < MaxRowId
    ensures Accepted(top + 1, n - 1) == Accepted(top, n) - 1
  {
  }

  /** When the flight row is new and the telemetry table has room, the batch
      is recorded up to its first `null` element: the table gains exactly one
      row per item in front of it, in batch order, each tagged with the
      request's flight id (never the id an item carries itself) and holding
      that item's columns. The request succeeds exactly when there is no
      `null` element; otherwise it fails and the telemetry table is left as
      it was, because the process ends before the queued inserts run. */
  lemma BatchRecorded(s: Store, flight: Flight, elements: seq<BatchElement>, k: nat)
    requires s.flights.Some? && !KeyTaken(s.flights.value, flight.flightId)
    requires k <= |elements| && (forall i :: 0 <= i < k ==> elements[i].Some?)
    requires k < |elements| ==> elements[k].None?
    requires s.telemetry.Some? && Top(s.telemetry.value) + k <= MaxRowId
    ensures var r := CreateFlight(s, flight, Some(elements));
            var oldRows := s.telemetry.value.rows;
            && r.result == (if k == |elements| then Ok(FlightAdded) else Err(NullItem))
            && r.store.flights == Some(s.flights.value + [flight])
            && (k < |elements| ==> r.store.telemetry == s.telemetry)
            && (k == |elements| ==>
                  && r.store.telemetry.Some?
                  && |r.store.telemetry.value.rows| == |oldRows| + k
                  && r.store.telemetry.value.rows[..|oldRows|] == oldRows
                  && forall i :: 0 <= i < k ==>
                       r.store.telemetry.value.rows[|oldRows| + i] ==
                         Row(Top(s.telemetry.value) + i + 1, TelemetryRecord(flight.flightId, elements[i].value.sample)))
  {
    var t := s.telemetry.value;
    var items := ItemsBeforeNull(elements);
    assert |items| == k;
    if k == |elements| {
      var withFlight := s.(flights := Some(s.flights.value + [flight]));
      assert CreateFlight(s, flight, Some(elements)).store ==
             withFlight.(telemetry := Some(InsertBatch(t, flight.flightId, items)));
      InsertBatchAppends(t, flight.flightId, items);
      assert Accepted(Top(t), |items|) == |items|;
      assert items[..|items|] == items;
    }
  }

  /** The store is not transactional: when no telemetry row can be written
      (here, the table is missing) the flight row is still committed and the
      request still reports success. */
  lemma FlightCommittedWithoutTelemetry(s: Store, flight: Flight, items: seq<BatchElement>)
    requires s.flights.Some? && !KeyTaken(s.flights.value, flight.flightId)
    requires s.telemetry.None? && forall i :: 0 <= i < |items| ==> items[i].Some?
    ensures var r := CreateFlight(s, flight, Some(items));
            && r.result == Ok(FlightAdded)
            && r.store.flights == Some(s.flights.value + [flight])
            && r.store.telemetry.None?
  {
  }

  /** A second flight with an existing text id is refused and changes nothing:
      neither flights nor telemetry gain a row. */
  lemma DuplicateRejected(s: Store, first: Flight, b1: Option<seq<BatchElement>>,
                          second: Flight, b2: Option<seq<BatchElement>>)
    requires s.flights.Some? && !KeyTaken(s.flights.value, first.flightId)
    requires first.flightId.Text? && second.flightId == first.flightId
    ensures var s1 := CreateFlight(s, first, b1).store;
            CreateFlight(s1, second, b2) == Step(s1, Err(UniqueViolation))
  {
    var s1 := CreateFlight(s, first, b1).store;
    var flights := s1.flights.value;
    assert flights[|flights| - 1] == first;
    assert KeyTaken(flights, second.flightId);
  }

  /** Two flights posted without a `flight_id` are both stored: NULL never
      clashes on the primary key, so the second is appended after the first. */
  lemma NullIdsNeverClash(s: Store, first: Flight, b1: Option<seq<BatchElement>>,
                          second: Flight, b2: Option<seq<BatchElement>>)
    requires s.flights.Some?
    requires first.flightId == Null && second.flightId == Null
    ensures var s1 := CreateFlight(s, first, b1).store;
            var r := CreateFlight(s1, second, b2);
            && r.result != Err(UniqueViolation)
            && r.store.flights == Some(s.flights.value + [first, second])
  {
    var s1 := CreateFlight(s, first, b1).store;
    assert s1.flights == Some(s.flights.value + [first]);
    assert s.flights.value + [first] + [second] == s.flights.value + [first, second];
  }

  /** In a valid store, asking for a flight that does not exist yields an
      empty telemetry list rather than an error, with the id echoed. */
  lemma UnknownFlightHasNoTelemetry(s: Store, f: string)
    requires Valid(s) && s.telemetry.Some? && !HasFlight(s, Text(f))
    ensures GetTelemetry(s, f).result == Ok(FlightTelemetry(f, []))
  {
    var rows := s.telemetry.value.rows;
    forall i | 0 <= i < |rows| ensures rows[i].data.flightId != Text(f) {
      assert HasFlight(s, rows[i].data.flightId);
    }
  }

  /** In a valid store the rows come back in id order, which is the order
      they were inserted in. */
  lemma TelemetryInIdOrder(s: Store, f: string)
    requires Valid(s) && s.telemetry.Some?
    ensures Ordered(GetTelemetry(s, f).result.value.rows)
  {
    SelectionOrdered(s.telemetry.value.rows, f);
  }

  // ---------------------------------------------------- routes and geofences

  /** A created route is listed afterwards under the returned id, with its
      name and its waypoints unchanged and in order. It is the only route
      listed with that id, because every id already in the table is smaller. */
  lemma RouteRoundTrip(s: Store, name: Value, waypoints: seq<Point>)
    requires CreateRoute(s, name, waypoints).result.Ok?
    ensures var created := CreateRoute(s, name, waypoints);
            var id := created.result.value.id;
            var listed := ListRoutes(created.store).result;
            && listed.Ok?
            && (exists i :: 0 <= i < |listed.value.shapes| &&
                  listed.value.shapes[i] == Row(id, Shape(name, waypoints)))
            && (forall i :: 0 <= i < |listed.value.shapes| && listed.value.shapes[i].id == id ==>
                  listed.value.shapes[i].data == Shape(name, waypoints))
  {
    var created := CreateRoute(s, name, waypoints);
    var shapes := created.store.routes.value.rows;
    assert shapes[|shapes| - 1] == Row(created.result.value.id, Shape(name, waypoints));
  }

  /** The same round trip for geofences and their coordinates. */
  lemma GeofenceRoundTrip(s: Store, name: Value, coordinates: seq<Point>)
    requires CreateGeofence(s, name, coordinates).result.Ok?
    ensures var created := CreateGeofence(s, name, coordinates);
            var id := created.result.value.id;
            var listed := ListGeofences(created.store).result;
            && listed.Ok?
            && (exists i :: 0 <= i < |listed.value.shapes| &&
                  listed.value.shapes[i] == Row(id, Shape(name, coordinates)))
            && (forall i :: 0 <= i < |listed.value.shapes| && listed.value.shapes[i].id == id ==>
                  listed.value.shapes[i].data == Shape(name, coordinates))
  {
    var created := CreateGeofence(s, name, coordinates);
    var shapes := created.store.geofences.value.rows;
    assert shapes[|shapes| - 1] == Row(created.result.value.id, Shape(name, coordinates));
  }

  /** Routes and geofences draw ids from separate sequences: what the other
      table holds never changes the id or the outcome of an insert. */
  lemma IdSequencesIndependent(s: Store, name: Value, points: seq<Point>,
                               otherRoutes: Option<Table<Shape>>, otherGeofences: Option<Table<Shape>>)
    ensures CreateRoute(s, name, points).result == CreateRoute(s.(geofences := otherGeofences), name, points).result
    ensures CreateGeofence(s, name, points).result == CreateGeofence(s.(routes := otherRoutes), name, points).result
  {
  }

  /** On a fresh database the first route gets id 1 and is listed with its
      waypoints in the order given. */
  lemma FirstRouteScenario(a: Point, b: Point)
    ensures var created := CreateRoute(EnsureSchema(NoTables()), Text("A"), [a, b]);
            && created.result == Ok(ShapeAdded(1))
            && ListRoutes(created.store).result == Ok(ShapeList([Row(1, Shape(Text("A"), [a, b]))]))
  {
    var schema := EnsureSchema(NoTables());
    assert schema.routes == Some(AutoIncrement.Empty());
    assert Top(schema.routes.value) == 0;
  }

  // ---------------------------------------------------------- all requests

  /** Queries never change the store. */
  lemma QueriesReadOnly(s: Store, req: Request)
    requires req.IsQuery()
    ensures Handle(s, req).store == s
  {
  }

  /** No request removes or rewrites a flight row: the flights before are a
      prefix of the flights after. */
  lemma FlightsNeverRemoved(s: Store, req: Request)
    requires s.flights.Some?
    ensures var after := Handle(s, req).store.flights;
            after.Some? && |s.flights.value| <= |after.value| &&
            after.value[..|s.flights.value|] == s.flights.value
  {
  }

  /** Every request keeps the invariant. */
  lemma HandlePreservesValid(s: Store, req: Request)
    requires Valid(s)
    ensures Valid(Handle(s, req).store)
  {
    match req
    case PostFlight(flight, batch) =>
      CreateFlightPreservesValid(s, flight, batch);
    case _ =>
  }

  lemma CreateFlightPreservesValid(s: Store, flight: Flight, batch: Option<seq<BatchElement>>)
    requires Valid(s)
    ensures Valid(CreateFlight(s, flight, batch).store)
  {
    if s.flights.Some? && !KeyTaken(s.flights.value, flight.flightId) {
      var flights := s.flights.value + [flight];
      var withFlight := s.(flights := Some(flights));
      assert flights[|flights| - 1] == flight;
      assert forall k :: HasFlight(s, k) ==> HasFlight(withFlight, k) by {
        forall k | HasFlight(s, k) ensures HasFlight(withFlight, k) {
          var j :| 0 <= j < |s.flights.value| && s.flights.value[j].flightId == k;
          assert flights[j].flightId == k;
        }
      }
      assert Valid(withFlight);
      match batch
      case None =>
      case Some(elements) =>
        var items := ItemsBeforeNull(elements);
        if |items| == |elements| {
          var r := RecordBatch(withFlight, flight.flightId, items);
          assert HasFlight(r, flight.flightId);
          if r.telemetry.Some? {
            var oldRows := withFlight.telemetry.value.rows;
            var newRows := r.telemetry.value.rows;
            forall i | 0 <= i < |newRows| ensures HasFlight(r, newRows[i].data.flightId) {
              if i < |oldRows| {
                assert newRows[i] == oldRows[i];
              }
            }
          }
        }
    }
  }
}

=== FILE: wrappers.dfy ===
/** Optional values and success/error results, shared by the store and the editor. */
module Wrappers {

  /** A value that may be missing. */
  datatype Option<+T> = None | Some(value: T)

  /** Either a successful payload or the error that stopped the operation. */
  datatype Result<+T, +E> = Ok(value: T) | Err(error: E)
}
